=== FILE: README.md ===
# Project store of the ondemand dashboard

This is a model of the dashboard's directory-backed **Project** record store. A
project is a directory. By default it lives at `<dataroot>/projects/<id>`, and
the caller may give an override path when creating it. The project's identity
is the manifest `<dir>/.ondemand/manifest.yml`: a YAML block mapping behind a
`---` document-start marker (section 9.1.2 of YAML 1.2). The mapping holds
exactly the keys `id`, `name`, `description` and `icon`, in that order.

The model is functional. A filesystem is a finite map from paths (sequences
of component names) to nodes, where a node is either a directory or a file
with its text. A project is an immutable record. `Project.new`, `save`
(create), `update`, `destroy!`, `manifest_path` and the manifest writer are
pure functions over these values. Failures are reported as a set of
per-field errors.

Modules, one per file:

- `Outcomes` (`outcomes.dfy`): `Option`, which supports `:-` failure propagation, and a plain `Result` of a value or an error.
- `Text` (`text.dfy`): the first position of a character in a string.
- `Paths` (`paths.dfy`):
  - The layout `<dataroot>/projects/<id>`, `<dir>/.ondemand` and `<dir>/.ondemand/manifest.yml`.
  - The slash-separated string form of a path, and the reader of that form.
- `FileSystems` (`filesystem.dfy`):
  - The map-based filesystem and its well-formedness: every node's parent is a directory.
  - Directory listing.
  - `mkdir -p`, writing a file, `rm -rf` and copying a directory's contents.
- `Manifests` (`manifest.dfy`): the manifest writer and a reader that inverts it.
- `Projects` (`project.dfy`): the record, validation, create, update, destroy and reading a project back.
- `Scenarios` (`scenarios.dfy`): the situations the store's tests describe. Each is stated for every filesystem, data root and fresh id that fit it.

## Model

| member | source | states |
|---|---|---|
| Projects.New | apps/dashboard/test/models/projects_test.rb:6-14 | A new project always has a non-empty id, and a caller-supplied id is kept. Name, description and icon are the values passed in, or the empty string when absent or nil. Directory and template are exactly the ones passed in, so with no attributes there is no directory. |
| Scenarios.NewProjectDefaults | apps/dashboard/test/models/projects_test.rb:6-14 | `Project.new` without attributes has a non-empty id and no directory. Its name, description and icon are all the empty string. |
| Projects.CreateErrors | apps/dashboard/test/models/projects_test.rb:16-34 | There is one error per invalid field, each as an if-and-only-if:<br>- name when the name is empty;<br>- icon when a non-empty icon breaks the format rule;<br>- directory when the override already exists;<br>- template when the template is not an existing directory.<br>No error is a storage error. |
| Scenarios.CreateEmptyFails | apps/dashboard/test/models/projects_test.rb:20-23 | Saving `Project.new({})` fails with exactly one error, on the name. |
| Scenarios.CreateThreeInvalidFields | apps/dashboard/test/models/projects_test.rb:25-32 | A bad icon, an override directory that already exists (`<dataroot>/projects`, which the test passes as `Project.dataroot`) and a missing template give exactly three errors: icon, directory and template. |
| Projects.Create | apps/dashboard/test/models/projects_test.rb:36-112 | Validation comes first: any validation error is returned unchanged, and success implies there were none. On success:<br>- the saved record is the input with its directory set to the override or the default and its template cleared;<br>- that directory and its `.ondemand` exist;<br>- the manifest file holds the serialised fields;<br>- nothing that existed is removed;<br>- no existing node outside the project directory changes;<br>- every new node is on the way to the project directory or inside it (`Projects.CreateAddsOnly` narrows this to the exact set).<br>A failure never has an empty error set. |
| Projects.CreateSucceeds | apps/dashboard/test/models/projects_test.rb:185-191 | Save succeeds when all of these hold:<br>- validation passes;<br>- the directory is new;<br>- nothing along the directory's path is a file;<br>- the template has no `.ondemand` and does not contain the new directory. |
| Projects.CreateAddsOnly | apps/dashboard/test/models/projects_test.rb:36-112 | The only nodes a successful create adds are:<br>- the directories on the way to the project directory;<br>- `.ondemand`;<br>- the manifest;<br>- with a template, nodes inside the project directory whose relative path names a template node (or a directory the copy passes through on the way to the project directory).<br>No stray node appears anywhere else, inside the project directory included. |
| Projects.CreateCopiesTemplate | apps/dashboard/test/models/projects_test.rb:58-78 | Every node under the template appears at the same relative path in the new project directory, with the same content. Only the store's own manifest takes precedence. The template's listing is contained in the project directory's listing. |
| Projects.CreatePreservesWellFormed | apps/dashboard/test/models/projects_test.rb:36-44 | A successful create leaves a well-formed tree, provided that, when a template is given, the project directory did not exist before. |
| Scenarios.DefaultDirectoryMakeable | apps/dashboard/test/models/projects_test.rb:185-190 | In a temporary data root with a fresh id, no component on the way to `<dataroot>/projects/<id>` is a regular file. |
| Scenarios.CreateProjectDefault | apps/dashboard/test/models/projects_test.rb:36-43 | `create_project` succeeds and keeps the id. On the resulting tree:<br>- the directory renders as `<dataroot>/projects/<id>`;<br>- the id is listed under `projects/`;<br>- `.ondemand` is listed in the project directory;<br>- the manifest file holds exactly the expected five lines. |
| Scenarios.TestManifestText | apps/dashboard/test/models/projects_test.rb:102-110 | The manifest of the test project is exactly these lines, each ended by a line break: `---`, `id: <id>`, `name: test-project`, `description: description`, `icon: fas://arrow-right`. |
| Scenarios.CreateProjectWithOverride | apps/dashboard/test/models/projects_test.rb:46-55 | With a new override path, the project's directory is that path verbatim. The directory exists, and `<override>/.ondemand/manifest.yml` is a file. |
| Scenarios.CreateProjectWithTemplate | apps/dashboard/test/models/projects_test.rb:58-78 | With a template directory, every entry of the template is listed in the new project directory. |
| Paths.DefaultDirectory | apps/dashboard/test/models/projects_test.rb:96 | The default directory lies strictly under the data root, two components deeper. |
| Paths.ManifestPath | apps/dashboard/test/models/projects_test.rb:98 | The manifest lies strictly under both `.ondemand` and the project directory. |
| Paths.RenderDefaultDirectory | apps/dashboard/test/models/projects_test.rb:96 | The default directory renders as the data root's string followed by `/projects/` and the id. |
| Paths.RenderManifestPath | apps/dashboard/test/models/projects_test.rb:98 | The manifest path renders as the project directory's string followed by `/.ondemand/manifest.yml`. |
| Paths.ParseRenderIff | apps/dashboard/test/models/projects_test.rb:96-98 | A string reads back as path `p` exactly when `p` has valid components and renders as that string. |
| Paths.ParseRender | apps/dashboard/test/models/projects_test.rb:96-98 | A path of valid components reads back from its string form. |
| Paths.RenderParse | apps/dashboard/test/models/projects_test.rb:96-98 | A string that reads back as a path is that path's string form. |
| Manifests.SerialiseAsLines | apps/dashboard/test/models/projects_test.rb:102-108 | The manifest is five lines: the document-start marker, then `id`, `name`, `description` and `icon` as `key: value`, in that order. |
| Manifests.ParseSerialise | apps/dashboard/test/models/projects_test.rb:102-110 | Reading back the text written for single-line fields gives the same fields. |
| Manifests.SerialiseParse | apps/dashboard/test/models/projects_test.rb:102-110 | Any text the reader accepts is exactly what the writer produces for the fields read, and those fields are single-line. |
| Manifests.ParseIff | apps/dashboard/test/models/projects_test.rb:102-110 | The reader accepts a text with result `m` exactly when `m` is single-line and the writer produces that text for it. |
| Manifests.ReadEntriesOf | apps/dashboard/test/models/projects_test.rb:103-107 | Reading the `key: value` lines written for any single-line keys and values gives the values back, in order. |
| Manifests.ReadEntriesRejoin | apps/dashboard/test/models/projects_test.rb:103-107 | Text the entry reader accepts is exactly the `key: value` lines of the values it returns. |
| Projects.Updated | apps/dashboard/test/models/projects_test.rb:162-169 | Copying in update attributes never changes the id, directory or template. |
| Projects.UpdateErrors | apps/dashboard/test/models/projects_test.rb:173-182 | Update errors, each as an if-and-only-if:<br>- name when the name is empty;<br>- icon when the icon is empty or breaks the format rule.<br>Update validation never reports a directory, template or storage error. |
| Projects.Update | apps/dashboard/test/models/projects_test.rb:128-171 | Validation comes first: any update validation error is returned unchanged, and success implies there were none. So an empty name, or an empty or malformed icon, always makes update fail. Failure reports a name error exactly when the new name is empty, and an icon error exactly when the new icon is empty or malformed.<br>Success:<br>- sets name, description and icon to the given values and keeps id, directory and template;<br>- writes the new fields to the manifest;<br>- changes no other node. |
| Projects.UpdateSucceeds | apps/dashboard/test/models/projects_test.rb:147 | A valid update of a created project whose `.ondemand` directory exists succeeds. |
| Projects.TemplateNotRetained | apps/dashboard/test/models/projects_test.rb:155-170 | A created project carries no template, and neither does the record any successful update of it returns, even when the payload names one. |
| Projects.UpdatePreservesWellFormed | apps/dashboard/test/models/projects_test.rb:128-153 | A successful update leaves a well-formed tree. |
| Scenarios.UpdateCreatedProject | apps/dashboard/test/models/projects_test.rb:128-152 | Updating a created project with new name, description and icon succeeds. The manifest then holds `---`, the original id and the three new values as lines. |
| Scenarios.UpdatedManifestText | apps/dashboard/test/models/projects_test.rb:139-151 | The rewritten manifest is exactly the five expected lines. |
| Scenarios.UpdateIgnoresCreateOnlyFields | apps/dashboard/test/models/projects_test.rb:155-170 | An update payload that also carries id, directory and template succeeds. It changes name, icon and description only: id and directory keep their values and the template stays unset. |
| Scenarios.UpdateNilNameAndIcon | apps/dashboard/test/models/projects_test.rb:173-182 | Updating with a nil name and a nil icon fails with exactly two errors, on name and on icon. |
| Projects.Destroy | apps/dashboard/test/models/projects_test.rb:114-126 | `.ondemand` is no longer listed in the project directory. Every node outside `.ondemand` survives, and no surviving node changes. A project without a directory leaves the tree exactly as it was. |
| Projects.DestroyKeepsDirectory | apps/dashboard/test/models/projects_test.rb:119-124 | The project directory stays and is still listed in its parent. Its own listing loses exactly `.ondemand`. |
| Projects.DestroyIdempotent | apps/dashboard/test/models/projects_test.rb:122 | Destroying twice is the same as destroying once. |
| Projects.DestroyPreservesWellFormed | apps/dashboard/test/models/projects_test.rb:122 | Destroy leaves a well-formed tree. |
| Scenarios.DestroyCreatedProject | apps/dashboard/test/models/projects_test.rb:114-125 | After creating and then destroying a project, its id is still listed under `projects/` and `.ondemand` is gone from its directory. |
| Projects.Load | apps/dashboard/test/models/projects_test.rb:149-151 | Reading a project reports not-found exactly when there is no manifest file. When the file exists, the read succeeds exactly when its text parses. A successful read returns fields whose serialisation is the file's text. |
| Projects.LoadAfterCreate | apps/dashboard/test/models/projects_test.rb:90-110 | A created project with single-line fields reads back as the fields it was created with. |
| Projects.LoadAfterUpdate | apps/dashboard/test/models/projects_test.rb:147-151 | An updated project with single-line fields reads back as its new fields. |
| Projects.LoadAfterDestroy | apps/dashboard/test/models/projects_test.rb:122-124 | After destroy, reading the project reports not-found. |
| FileSystems.Entries | apps/dashboard/test/models/projects_test.rb:42 | A name is listed in a directory exactly when the directory joined with that name is a node. |
| FileSystems.MakePath | apps/dashboard/test/models/projects_test.rb:66 | `mkdir -p` succeeds exactly when no component along the path is a regular file. On success:<br>- every prefix of the path is a directory;<br>- all old nodes are kept unchanged;<br>- every new node is a prefix of the path. |
| FileSystems.WriteFile | apps/dashboard/test/models/projects_test.rb:67-69 | Writing succeeds exactly when the parent is a directory and the target is not a directory. Only the target's node is added or replaced. |
| FileSystems.RemoveTree | apps/dashboard/test/models/projects_test.rb:122-124 | Exactly the nodes at or under the path are removed. The rest keep their contents. |
| FileSystems.CopyInto | apps/dashboard/test/models/projects_test.rb:58-78 | Every node under the source reappears at the same relative path under the destination with the same content. Old nodes are kept. Nodes outside the destination keep their contents, and so do nodes inside it that no source node replaces. Every new node lies under the destination and has a source node. |
| FileSystems.MakePathWellFormed | apps/dashboard/test/models/projects_test.rb:66 | `mkdir -p` keeps a tree well formed. |
| FileSystems.WriteFileWellFormed | apps/dashboard/test/models/projects_test.rb:67-69 | Writing a file keeps a tree well formed. |
| FileSystems.RemoveTreeWellFormed | apps/dashboard/test/models/projects_test.rb:122 | Removing a non-root subtree keeps a tree well formed. |
| FileSystems.CopyIntoWellFormed | apps/dashboard/test/models/projects_test.rb:58-78 | Copying into an empty existing directory keeps a tree well formed. |
| FileSystems.AncestorsAreDirectories | apps/dashboard/test/models/projects_test.rb:53 | In a well-formed tree, every proper ancestor of a node is a directory. |

## Left out

- `apps/dashboard/app/controllers/permissions_controller.rb` is not part of this model. It is HTTP glue: it checks the request format and reads a file's mode through `PosixFile`. It then calls the external `acl` gem, and it has no logic of its own.
- The `Project` model's own source file is not part of this model. Its behaviour is taken from its tests: validation, path layout, template copy, manifest text, update and destroy.
- Real filesystem I/O, `Dir.mktmpdir` and the stubbing of `OodAppkit.dataroot` are replaced by a map-based filesystem and an explicit data root in `Projects.Config`.
- `Configuration.project_template_dir` is not modelled. A template may be any directory, and no check confines it under a template root.
- `Project.next_id` and its randomness are replaced by a `generatedId` parameter. Uniqueness is the assumption that `<dataroot>/projects/<id>` does not yet exist (`Scenarios.FreshId`).
- The icon-format rule is not visible. It is the abstract `Config.iconValid`; the scenarios only fix it on `fas://arrow-right`, `fas://arrow-left` and `fas://updated` (valid) and `invalid_format` (invalid).
- Manifests.Serialise writes values verbatim as plain scalars. It does not model YAML's quoting and escaping. So a value that YAML would read differently is written unquoted:
  - an empty value, such as the default description, becomes `description: `, which YAML reads as null rather than `''`;
  - `null`, `~`, `true`, `false` and numbers would read as other types;
  - values containing `: ` or ` #`, or with leading or trailing spaces, would change meaning;
  - values starting with an indicator character would also change meaning.
  The model's own reader inverts the writer exactly for single-line values.
- General YAML parsing is not modelled. `Manifests.Parse` accepts exactly the fixed five-line layout.
- The Rails validation framework is reduced to a set of per-field errors. A field carries at most one error, so the error count is the size of that set.
- Rails' distinction between nil and blank strings is folded: an absent or nil text attribute reads as the empty string. An update without a description therefore clears it. Every update the tests expect to succeed passes a description (projects_test.rb lines 137 and 162). The update at line 178 passes none, but it fails validation before the record changes.
- Rails' `blank?` also treats a string of only whitespace as missing. The model checks only for the empty string, so a name or icon made only of whitespace counts as present.
- Projects.Create does not check whether the default directory `<dataroot>/projects/<id>` already holds a project: only an explicit directory override that already exists is rejected. A caller-supplied id that is already in use therefore passes validation and overwrites that project's manifest. For a generated id, freshness is the `Scenarios.FreshId` assumption.
- Projects.Create and Projects.Update state nothing about the filesystem after a failure. A failed `mkdir -p`, copy or manifest write may leave partial state on disk, and the tests assert only error counts.
- Projects.Create reports a failed `mkdir -p` as a directory error and a failed manifest write as a storage error. The model does not know the messages the real store attaches.
- FileSystems.CopyInto is not modelled as a Ruby `FileUtils` call. The create lemmas require that the project directory does not lie inside the template (and is not the template itself), so copying a template into its own subtree is not covered.
- `Pathname#expand_path` and relative override paths are not modelled: paths are absolute component sequences. Ids containing `/` are outside `Paths.ValidName`.
- `Dir.entries` also lists `.` and `..`. `FileSystems.Entries` lists only real children.
- Scenarios.CreateThreeInvalidFields assumes `<dataroot>/projects` already exists. The test passes `Project.dataroot`, which is `<dataroot>/projects`, as the override. It starts from a fresh temporary directory, so it relies on `Project.dataroot` creating that directory as a side effect, and the model does not have that side effect. Without the directory, the same attributes give only the icon and template errors.
- Projects.Update reports a record that was never created (it has no directory) as a storage failure after validation, since there is no manifest to rewrite. The tests only update created projects.
- Exceptions from `destroy!` are not modelled: removing a missing `.ondemand` leaves the tree unchanged.
- Scenarios.TestManifestText and Scenarios.UpdatedManifestText state the expected text as its five lines, each followed by a line break, rather than as one string literal.

=== FILE: filesystem.dfy ===
/** The filesystem the project store lives on, reduced to a finite map from
    absolute paths to nodes, with the handful of operations the store uses:
    `mkdir -p`, writing a file, recursive removal and a recursive copy of a
    directory's contents. */
module FileSystems {
  import opened Outcomes
  import opened Paths

  datatype Node = Dir | File(content: string)

  type FileSystem = map<Path, Node>

  predicate IsDir(fs: FileSystem, p: Path) {
    p in fs && fs[p].Dir?
  }

  predicate IsFile(fs: FileSystem, p: Path) {
    p in fs && fs[p].File?
  }

  /** The root is a directory and every other node sits inside a directory. */
  predicate WellFormed(fs: FileSystem) {
    && IsDir(fs, [])
    && forall p {:trigger Parent(p)} :: p in fs && p != [] ==> IsDir(fs, Parent(p))
  }

  /** The names listed in the directory `dir` (a directory listing without `.` and `..`). */
  function Entries(fs: FileSystem, dir: Path): (names: set<string>)
    ensures forall n :: n in names <==> dir + [n] in fs
  {
    var names := set q | q in fs && |q| == |dir| + 1 && q[..|dir|] == dir :: q[|dir|];
    assert forall n :: dir + [n] in fs ==> n in names by {
      forall n | dir + [n] in fs ensures n in names {
        var q := dir + [n];
        assert q[..|dir|] == dir && q[|dir|] == n;
      }
    }
    assert forall n :: n in names ==> dir + [n] in fs by {
      forall n | n in names ensures dir + [n] in fs {
        var q :| q in fs && |q| == |dir| + 1 && q[..|dir|] == dir && q[|dir|] == n;
        assert q == dir + [n];
      }
    }
    names
  }

  /** Every proper ancestor of an existing node is a directory. */
  lemma {:induction false} AncestorsAreDirectories(fs: FileSystem, p: Path, a: Path)
    requires WellFormed(fs) && p in fs && StrictlyUnder(a, p)
    ensures IsDir(fs, a)
    decreases |p|
  {
    var q := Parent(p);
    assert IsDir(fs, q);
    if q != a {
      assert q[..|a|] == p[..|a|];
      assert |a| < |q|;
      AncestorsAreDirectories(fs, q, a);
    }
  }

  /** Nothing exists inside a path that does not exist. */
  lemma NothingUnderMissing(fs: FileSystem, a: Path)
    requires WellFormed(fs) && a !in fs
    ensures forall q :: q in fs ==> !StrictlyUnder(a, q)
  {
    forall q | q in fs && StrictlyUnder(a, q) ensures false {
      AncestorsAreDirectories(fs, q, a);
    }
  }

  /** No component along `p`, `p` itself included, is a regular file. */
  predicate NoFileOnPath(fs: FileSystem, p: Path) {
    forall i :: 0 <= i <= |p| ==> !IsFile(fs, p[..i])
  }

  /** `mkdir -p p`: creates every missing directory along `p`; fails when a
      component along the way is a regular file. */
  function MakePath(fs: FileSystem, p: Path): (r: Option<FileSystem>)
    ensures r.Some? <==> NoFileOnPath(fs, p)
    ensures r.Some? ==> forall i :: 0 <= i <= |p| ==> IsDir(r.value, p[..i])
    ensures r.Some? ==> forall q :: q in fs ==> q in r.value && r.value[q] == fs[q]
    ensures r.Some? ==> forall q :: q in r.value ==> q in fs || IsPrefix(q, p)
    decreases |p|
  {
    if p == [] then
      assert forall i :: 0 <= i <= |p| ==> p[..i] == [];
      if IsFile(fs, []) then
        assert IsFile(fs, p[..0]);
        None
      else if [] in fs then Some(fs)
      else Some(fs[[] := Dir])
    else
      var up := Parent(p);
      assert forall i :: 0 <= i <= |up| ==> up[..i] == p[..i];
      assert p[..|p|] == p;
      match MakePath(fs, up)
      case None => None
      case Some(fs1) =>
        if IsFile(fs1, p) then None
        else if p in fs1 then Some(fs1)
        else Some(fs1[p := Dir])
  }

  /** Writes `content` to the regular file `p`; fails when the containing
      directory is missing or `p` is a directory. */
  function WriteFile(fs: FileSystem, p: Path, content: string): (r: Option<FileSystem>)
    ensures r.Some? <==> p != [] && IsDir(fs, Parent(p)) && !IsDir(fs, p)
    ensures r.Some? ==> r.value.Keys == fs.Keys + {p} && r.value[p] == File(content)
    ensures r.Some? ==> forall q :: q in fs && q != p ==> r.value[q] == fs[q]
  {
    if p != [] && IsDir(fs, Parent(p)) && !IsDir(fs, p) then Some(fs[p := File(content)]) else None
  }

  /** `rm -rf p`: removes `p` and everything inside it, and nothing else. */
  function RemoveTree(fs: FileSystem, p: Path): (r: FileSystem)
    ensures forall q :: q in r <==> q in fs && !IsPrefix(p, q)
    ensures forall q :: q in r ==> r[q] == fs[q]
  {
    map q | q in fs && !IsPrefix(p, q) :: fs[q]
  }

  /** Copies everything inside `src` into `dst`, keeping relative paths and
      contents; entries already in `dst` with the same relative path are
      overwritten, everything else is kept. */
  function CopyInto(fs: FileSystem, src: Path, dst: Path): (r: FileSystem)
    ensures forall s {:trigger r[dst + s]} :: s != [] && src + s in fs ==> dst + s in r && r[dst + s] == fs[src + s]
    ensures forall q :: q in fs ==> q in r
    ensures forall q :: q in r && !StrictlyUnder(dst, q) ==> q in fs && r[q] == fs[q]
    ensures forall q :: q in r && q !in fs ==> StrictlyUnder(dst, q) && src + q[|dst|..] in fs
    ensures forall q :: q in fs && StrictlyUnder(dst, q) && src + q[|dst|..] !in fs ==> r[q] == fs[q]
  {
    var targets := set q | q in fs && StrictlyUnder(src, q) :: dst + q[|src|..];
    var copied := map k | k in targets && StrictlyUnder(dst, k) && src + k[|dst|..] in fs :: fs[src + k[|dst|..]];
    assert forall s :: s != [] && src + s in fs ==> dst + s in copied && copied[dst + s] == fs[src + s] by {
      forall s | s != [] && src + s in fs
        ensures dst + s in copied && copied[dst + s] == fs[src + s]
      {
        var q := src + s;
        assert StrictlyUnder(src, q) && q[|src|..] == s;
        assert dst + s in targets;
        assert (dst + s)[|dst|..] == s;
      }
    }
    fs + copied
  }

  lemma MakePathWellFormed(fs: FileSystem, p: Path)
    requires WellFormed(fs) && MakePath(fs, p).Some?
    ensures WellFormed(MakePath(fs, p).value)
  {
    var r := MakePath(fs, p).value;
    forall q | q in r && q != [] ensures IsDir(r, Parent(q)) {
      if q in fs {
        assert IsDir(fs, Parent(q));
      } else {
        assert IsPrefix(q, p);
        assert Parent(q) == p[..|q| - 1];
      }
    }
  }

  lemma WriteFileWellFormed(fs: FileSystem, p: Path, content: string)
    requires WellFormed(fs) && WriteFile(fs, p, content).Some?
    ensures WellFormed(WriteFile(fs, p, content).value)
  {
    var r := WriteFile(fs, p, content).value;
    forall q | q in r && q != [] ensures IsDir(r, Parent(q)) {
      if q != p {
        assert IsDir(fs, Parent(q));
        assert Parent(q) != p;
      }
    }
  }

  lemma RemoveTreeWellFormed(fs: FileSystem, p: Path)
    requires WellFormed(fs) && p != []
    ensures WellFormed(RemoveTree(fs, p))
  {
    var r := RemoveTree(fs, p);
    forall q | q in r && q != [] ensures IsDir(r, Parent(q)) {
      assert IsDir(fs, Parent(q));
    }
  }

  /** Copying into an empty directory keeps the tree well formed. */
  lemma CopyIntoWellFormed(fs: FileSystem, src: Path, dst: Path)
    requires WellFormed(fs) && IsDir(fs, dst)
    requires forall q :: q in fs ==> !StrictlyUnder(dst, q)
    ensures WellFormed(CopyInto(fs, src, dst))
  {
    var r := CopyInto(fs, src, dst);
    assert !StrictlyUnder(dst, []);
    forall q | q in r && q != [] ensures IsDir(r, Parent(q)) {
      if q in fs {
        CopiedKeepsOldParent(fs, src, dst, q);
      } else {
        CopiedHasCopiedParent(fs, src, dst, q);
      }
    }
  }

  lemma CopiedKeepsOldParent(fs: FileSystem, src: Path, dst: Path, q: Path)
    requires WellFormed(fs) && q in fs && q != []
    requires forall q :: q in fs ==> !StrictlyUnder(dst, q)
    ensures IsDir(CopyInto(fs, src, dst), Parent(q))
  {
    var up := Parent(q);
    assert IsDir(fs, up);
    assert !StrictlyUnder(dst, up);
  }

  lemma CopiedHasCopiedParent(fs: FileSystem, src: Path, dst: Path, q: Path)
    requires WellFormed(fs) && IsDir(fs, dst)
    requires q in CopyInto(fs, src, dst) && q !in fs
    ensures IsDir(CopyInto(fs, src, dst), Parent(q))
  {
    var s := q[|dst|..];
    assert q == dst + s;
    assert src + s in fs;
    if |s| == 1 {
      assert Parent(q) == dst;
      CopyKeepsOutside(fs, src, dst, dst);
    } else {
      var t := s[..|s| - 1];
      assert Parent(src + s) == src + t;
      assert IsDir(fs, src + t);
      CopiedParent(fs, src, dst, s);
    }
  }

  lemma CopiedEntry(fs: FileSystem, src: Path, dst: Path, s: Path)
    requires s != [] && src + s in fs
    ensures dst + s in CopyInto(fs, src, dst) && CopyInto(fs, src, dst)[dst + s] == fs[src + s]
  {
  }

  lemma CopyKeepsOutside(fs: FileSystem, src: Path, dst: Path, q: Path)
    requires q in fs && !StrictlyUnder(dst, q)
    ensures q in CopyInto(fs, src, dst) && CopyInto(fs, src, dst)[q] == fs[q]
  {
  }

  lemma CopiedParent(fs: FileSystem, src: Path, dst: Path, s: Path)
    requires |s| > 1 && IsDir(fs, src + s[..|s| - 1])
    ensures IsDir(CopyInto(fs, src, dst), Parent(dst + s))
  {
    var t := s[..|s| - 1];
    assert Parent(dst + s) == dst + t;
    var r := CopyInto(fs, src, dst);
    assert t != [] && src + t in fs;
    assert r[dst + t] == fs[src + t];
  }
}

=== FILE: manifest.dfy ===
/** The manifest codec: the four persisted fields of a project written as a
    YAML block mapping behind a `---` document-start marker (section 9.1.2 of
    YAML 1.2), one `key: value` line per field in the fixed order `id`,
    `name`, `description`, `icon`, and the reader that takes such text back. */
module Manifests {
  import opened Outcomes
  import Text

  /** The persisted part of a project; `directory` and `template` are never written. */
  datatype Manifest = Manifest(id: string, name: string, description: string, icon: string)

  const DocumentStart: string := "---"

  /** The keys of the mapping, in the order they are written. */
  const Keys: seq<string> := ["id", "name", "description", "icon"]

  /** The values of a manifest, in the order of `Keys`. */
  function Values(m: Manifest): (vs: seq<string>)
    ensures |vs| == |Keys|
  {
    [m.id, m.name, m.description, m.icon]
  }

  predicate SingleLine(v: string) {
    '\n' !in v
  }

  predicate AllSingleLine(vs: seq<string>) {
    forall i :: 0 <= i < |vs| ==> SingleLine(vs[i])
  }

  /** Every field fits on its own line, so the text has exactly five lines. */
  predicate Emittable(m: Manifest) {
    SingleLine(m.id) && SingleLine(m.name) && SingleLine(m.description) && SingleLine(m.icon)
  }

  /** One `key: value` line of the mapping, without its line break. */
  function Entry(key: string, value: string): string {
    key + ": " + value
  }

  /** The entry lines pairing each key with the value at the same position. */
  function EntryLines(keys: seq<string>, values: seq<string>): (es: seq<string>)
    requires |keys| == |values|
    ensures |es| == |keys|
    ensures forall i :: 0 <= i < |keys| ==> es[i] == Entry(keys[i], values[i])
  {
    if keys == [] then [] else [Entry(keys[0], values[0])] + EntryLines(keys[1..], values[1..])
  }

  /** Text made of the given lines, each ended by a line break. */
  function Lines(ls: seq<string>): string {
    if ls == [] then "" else ls[0] + "\n" + Lines(ls[1..])
  }

  /** The manifest text: the marker line, then one entry per key. */
  function Serialise(m: Manifest): string {
    Lines([DocumentStart] + EntryLines(Keys, Values(m)))
  }

  /** The first line of `s` and what follows its line break; `None` without a line break. */
  function SplitLine(s: string): Option<(string, string)> {
    var k := Text.FirstIndex(s, '\n');
    if k == |s| then None else Some((s[..k], s[k + 1..]))
  }

  /** Reads the line `key: value` at the start of `s`, giving the value and the remaining text. */
  function ReadEntry(key: string, s: string): Option<(string, string)> {
    var split :- SplitLine(s);
    var line, prefix := split.0, key + ": ";
    if |prefix| <= |line| && line[..|prefix|] == prefix then Some((line[|prefix|..], split.1))
    else None
  }

  /** Reads one entry per key, in order, and requires the text to end there. */
  function ReadEntries(keys: seq<string>, s: string): (r: Option<seq<string>>)
    ensures r.Some? ==> |r.value| == |keys|
  {
    if keys == [] then
      if s == "" then Some([]) else None
    else
      var first :- ReadEntry(keys[0], s);
      var rest :- ReadEntries(keys[1..], first.1);
      Some([first.0] + rest)
  }

  /** Reads manifest text back; any deviation from the fixed layout fails. */
  function Parse(text: string): Option<Manifest> {
    var start :- SplitLine(text);
    if start.0 != DocumentStart then None
    else
      var vs :- ReadEntries(Keys, start.1);
      Some(Manifest(vs[0], vs[1], vs[2], vs[3]))
  }

  lemma LinesCons(l: string, ls: seq<string>)
    ensures Lines([l] + ls) == l + "\n" + Lines(ls)
  {
    assert ([l] + ls)[1..] == ls;
  }

  /** The manifest is exactly five lines: the document-start marker, then
      `id`, `name`, `description` and `icon`, in that order, as `key: value`. */
  lemma SerialiseAsLines(m: Manifest)
    ensures Serialise(m) == Lines([DocumentStart, "id: " + m.id, "name: " + m.name,
                                   "description: " + m.description, "icon: " + m.icon])
  {
    var es := EntryLines(Keys, Values(m));
    assert es[0] == "id: " + m.id by { assert "id" + ": " == "id: "; }
    assert es[1] == "name: " + m.name by { assert "name" + ": " == "name: "; }
    assert es[2] == "description: " + m.description by { assert "description" + ": " == "description: "; }
    assert es[3] == "icon: " + m.icon by { assert "icon" + ": " == "icon: "; }
    assert [DocumentStart] + es == [DocumentStart, es[0], es[1], es[2], es[3]];
  }

  lemma SplitLineOf(line: string, rest: string)
    requires SingleLine(line)
    ensures SplitLine(line + "\n" + rest) == Some((line, rest))
  {
    Text.FirstIndexAfterPrefix(line, '\n', rest);
    var s := line + "\n" + rest;
    assert s[..|line|] == line;
    assert s[|line| + 1..] == rest;
  }

  lemma ReadEntryOf(key: string, value: string, rest: string)
    requires SingleLine(key) && SingleLine(value)
    ensures ReadEntry(key, Entry(key, value) + "\n" + rest) == Some((value, rest))
  {
    var line := Entry(key, value);
    assert SingleLine(line);
    SplitLineOf(line, rest);
    assert line[..|key + ": "|] == key + ": ";
    assert line[|key + ": "|..] == value;
  }

  /** Reading the lines written for single-line keys and values gives the values back. */
  lemma {:induction false} ReadEntriesOf(keys: seq<string>, values: seq<string>)
    requires |keys| == |values| && AllSingleLine(keys) && AllSingleLine(values)
    ensures ReadEntries(keys, Lines(EntryLines(keys, values))) == Some(values)
  {
    if keys != [] {
      var es := EntryLines(keys, values);
      LinesCons(es[0], es[1..]);
      assert [es[0]] + es[1..] == es;
      ReadEntryOf(keys[0], values[0], Lines(es[1..]));
      ReadEntriesOf(keys[1..], values[1..]);
      assert [values[0]] + values[1..] == values;
    }
  }

  lemma KeysSingleLine()
    ensures AllSingleLine(Keys)
  {
    assert SingleLine(Keys[0]) && SingleLine(Keys[1]) && SingleLine(Keys[2]) && SingleLine(Keys[3]);
  }

  /** Reading the serialised text gives back the same manifest. */
  lemma ParseSerialise(m: Manifest)
    requires Emittable(m)
    ensures Parse(Serialise(m)) == Some(m)
  {
    var es := EntryLines(Keys, Values(m));
    LinesCons(DocumentStart, es);
    SplitLineOf(DocumentStart, Lines(es));
    KeysSingleLine();
    ReadEntriesOf(Keys, Values(m));
  }

  lemma SplitLineRejoins(s: string)
    requires SplitLine(s).Some?
    ensures var (line, rest) := SplitLine(s).value; SingleLine(line) && s == line + "\n" + rest
  {
    var k := Text.FirstIndex(s, '\n');
    assert s == s[..k] + [s[k]] + s[k + 1..];
  }

  lemma ReadEntryRejoins(key: string, s: string)
    requires ReadEntry(key, s).Some?
    ensures var (value, rest) := ReadEntry(key, s).value; SingleLine(value) && s == Entry(key, value) + "\n" + rest
  {
    SplitLineRejoins(s);
    var (line, rest) := SplitLine(s).value;
    var prefix := key + ": ";
    var value := line[|prefix|..];
    assert line == prefix + value;
    assert '\n' !in value by {
      forall i | 0 <= i < |value| ensures value[i] != '\n' {
        assert value[i] == line[|prefix| + i];
      }
    }
  }

  /** Text the entry reader accepts is exactly the lines of the values it returns. */
  lemma {:induction false} ReadEntriesRejoin(keys: seq<string>, s: string)
    requires ReadEntries(keys, s).Some?
    ensures AllSingleLine(ReadEntries(keys, s).value)
    ensures s == Lines(EntryLines(keys, ReadEntries(keys, s).value))
  {
    if keys != [] {
      var vs := ReadEntries(keys, s).value;
      ReadEntryRejoins(keys[0], s);
      var first := ReadEntry(keys[0], s).value;
      ReadEntriesRejoin(keys[1..], first.1);
      assert vs == [first.0] + ReadEntries(keys[1..], first.1).value;
      assert vs[1..] == ReadEntries(keys[1..], first.1).value;
      var es := EntryLines(keys, vs);
      LinesCons(es[0], es[1..]);
      assert [es[0]] + es[1..] == es;
    }
  }

  /** Text the reader accepts is the marker line followed by the entry lines it read. */
  lemma ParseParts(text: string)
    requires Parse(text).Some?
    ensures SplitLine(text).Some? && SplitLine(text).value.0 == DocumentStart
    ensures ReadEntries(Keys, SplitLine(text).value.1).Some?
    ensures var vs := ReadEntries(Keys, SplitLine(text).value.1).value;
      Parse(text).value == Manifest(vs[0], vs[1], vs[2], vs[3])
  {
  }

  lemma ValuesOf(vs: seq<string>)
    requires |vs| == |Keys|
    ensures Values(Manifest(vs[0], vs[1], vs[2], vs[3])) == vs
  {
  }

  lemma SerialiseUnfolds(m: Manifest)
    ensures Serialise(m) == DocumentStart + "\n" + Lines(EntryLines(Keys, Values(m)))
  {
    LinesCons(DocumentStart, EntryLines(Keys, Values(m)));
  }

  /** Whatever the reader accepts is exactly the serialisation of what it returns. */
  lemma SerialiseParse(text: string, m: Manifest)
    requires Parse(text) == Some(m)
    ensures Emittable(m) && Serialise(m) == text
  {
    ParseParts(text);
    SplitLineRejoins(text);
    var rest := SplitLine(text).value.1;
    var vs := ReadEntries(Keys, rest).value;
    ReadEntriesRejoin(Keys, rest);
    ValuesOf(vs);
    assert SingleLine(vs[0]) && SingleLine(vs[1]) && SingleLine(vs[2]) && SingleLine(vs[3]);
    SerialiseUnfolds(m);
  }

  /** The codec is a bijection between single-line manifests and the texts the reader accepts. */
  lemma ParseIff(text: string, m: Manifest)
    ensures Parse(text) == Some(m) <==> Emittable(m) && Serialise(m) == text
  {
    if Parse(text) == Some(m) {
      SerialiseParse(text, m);
    }
    if Emittable(m) && Serialise(m) == text {
      ParseSerialise(m);
    }
  }
}

=== FILE: outcomes.dfy ===
/** Outcome types used by every layer of the project store: `Option` for
    lookups and parses that may find nothing (it supports `:-`), and a plain
    `Result` for operations that either produce a value or report what went
    wrong. */
module Outcomes {

  datatype Option<+T> = None | Some(value: T) {

    predicate IsFailure() {
      None?
    }

    function PropagateFailure<U>(): Option<U>
      requires None?
    {
      None
    }

    function Extract(): T
      requires Some?
    {
      value
    }

    /** The wrapped value, or `default` when there is none. */
    function GetOr(default: T): T {
      match this
      case Some(v) => v
      case None => default
    }
  }

  datatype Result<+R, +E> = Success(value: R) | Failure(error: E)
}

=== FILE: paths.dfy ===
/** Path resolution for the project store: where a project's root directory,
    its reserved configuration directory and its manifest file live, and how
    those locations read as slash-separated strings. */
module Paths {
  import opened Outcomes
  import Text

  /** An absolute path as the sequence of its components; `[]` is the root `/`. */
  type Path = seq<string>

  /** Name of the directory under the data root that holds default project roots. */
  const ProjectsDirName: string := "projects"
  /** Name of the reserved configuration directory inside a project root. */
  const ConfigDirName: string := ".ondemand"
  /** Name of the manifest file inside the configuration directory. */
  const ManifestFileName: string := "manifest.yml"

  /** A single path component: non-empty and free of the separator. */
  predicate ValidName(n: string) {
    n != "" && '/' !in n
  }

  predicate ValidPath(p: Path) {
    forall i :: 0 <= i < |p| ==> ValidName(p[i])
  }

  /** `a` is `b` itself or one of its ancestors. */
  predicate IsPrefix(a: Path, b: Path) {
    |a| <= |b| && b[..|a|] == a
  }

  /** `b` lies strictly inside the directory `a`. */
  predicate StrictlyUnder(a: Path, b: Path) {
    |a| < |b| && b[..|a|] == a
  }

  lemma PrefixTransitive(a: Path, b: Path, c: Path)
    requires IsPrefix(a, b) && IsPrefix(b, c)
    ensures IsPrefix(a, c)
  {
    assert c[..|a|] == c[..|b|][..|a|];
  }

  function Parent(p: Path): Path
    requires p != []
  {
    p[..|p| - 1]
  }

  /** The directory that holds every default project root: `<dataroot>/projects`. */
  function ProjectsRoot(dataroot: Path): (r: Path)
    ensures r != [] && Parent(r) == dataroot && r[|r| - 1] == ProjectsDirName
  {
    dataroot + [ProjectsDirName]
  }

  /** The root a project gets when no directory override is supplied. */
  function DefaultDirectory(dataroot: Path, id: string): (d: Path)
    ensures d != [] && Parent(d) == ProjectsRoot(dataroot) && d[|d| - 1] == id
    ensures StrictlyUnder(dataroot, d) && |d| == |dataroot| + 2
  {
    ProjectsRoot(dataroot) + [id]
  }

  /** The reserved configuration directory `<dir>/.ondemand`. */
  function ConfigurationDirectory(dir: Path): (c: Path)
    ensures c != [] && Parent(c) == dir && c[|c| - 1] == ConfigDirName
  {
    dir + [ConfigDirName]
  }

  /** The manifest location `<dir>/.ondemand/manifest.yml`. */
  function ManifestPath(dir: Path): (m: Path)
    ensures m != [] && Parent(m) == ConfigurationDirectory(dir) && m[|m| - 1] == ManifestFileName
    ensures StrictlyUnder(ConfigurationDirectory(dir), m) && StrictlyUnder(dir, m)
  {
    ConfigurationDirectory(dir) + [ManifestFileName]
  }

  /** `"/c1/c2/…/cn"` for the components after the root, each preceded by a slash. */
  function Slashed(p: Path): string {
    if p == [] then "" else "/" + p[0] + Slashed(p[1..])
  }

  /** The string form of a path: `/` for the root, `/c1/…/cn` otherwise. */
  function Render(p: Path): string {
    if p == [] then "/" else Slashed(p)
  }

  lemma {:induction false} SlashedAppend(a: Path, b: Path)
    ensures Slashed(a + b) == Slashed(a) + Slashed(b)
  {
    if a == [] {
      assert a + b == b;
    } else {
      assert (a + b)[0] == a[0];
      assert (a + b)[1..] == a[1..] + b;
      SlashedAppend(a[1..], b);
    }
  }

  /** Appending components to a non-root path appends `/name` to its string form. */
  lemma RenderAppend(p: Path, names: Path)
    requires p != []
    ensures Render(p + names) == Render(p) + Slashed(names)
  {
    SlashedAppend(p, names);
  }

  lemma SlashedPair(a: string, b: string)
    ensures Slashed([a, b]) == "/" + a + ("/" + b)
  {
    assert [a, b][1..] == [b];
    assert [b][1..] == [];
    assert Slashed([b]) == "/" + b + "";
  }

  lemma ProjectsSuffix(id: string)
    ensures Slashed([ProjectsDirName, id]) == "/projects/" + id
  {
    SlashedPair(ProjectsDirName, id);
    assert "/" + ProjectsDirName + "/" == "/projects/";
  }

  lemma ManifestSuffix()
    ensures Slashed([ConfigDirName, ManifestFileName]) == "/.ondemand/manifest.yml"
  {
    SlashedPair(ConfigDirName, ManifestFileName);
  }

  /** The default root reads as `<dataroot>/projects/<id>`. */
  lemma RenderDefaultDirectory(dataroot: Path, id: string)
    requires dataroot != []
    ensures Render(DefaultDirectory(dataroot, id)) == Render(dataroot) + "/projects/" + id
  {
    var names := [ProjectsDirName, id];
    assert DefaultDirectory(dataroot, id) == dataroot + names;
    RenderAppend(dataroot, names);
    ProjectsSuffix(id);
  }

  /** The manifest of a project rooted at `dir` reads as `<dir>/.ondemand/manifest.yml`. */
  lemma RenderManifestPath(dir: Path)
    requires dir != []
    ensures Render(ManifestPath(dir)) == Render(dir) + "/.ondemand/manifest.yml"
  {
    var names := [ConfigDirName, ManifestFileName];
    assert ManifestPath(dir) == dir + names;
    RenderAppend(dir, names);
    ManifestSuffix();
  }

  /** Splits `s` at every slash. */
  function Components(s: string): (cs: Path)
    ensures |cs| >= 1
    decreases |s|
  {
    var k := Text.FirstIndex(s, '/');
    if k == |s| then [s] else [s[..k]] + Components(s[k + 1..])
  }

  /** Components joined back with single slashes. */
  function Joined(cs: Path): string
    requires |cs| >= 1
  {
    cs[0] + Slashed(cs[1..])
  }

  /** Reads a path written as an absolute slash-separated string. Empty
      components (a doubled or trailing slash) make the string unreadable. */
  function ParsePath(s: string): Option<Path> {
    if |s| == 0 || s[0] != '/' then None
    else if s == "/" then Some([])
    else
      var cs := Components(s[1..]);
      if ValidPath(cs) then Some(cs) else None
  }

  /** Splitting at the first slash after a slash-free head. */
  lemma ComponentsCons(head: string, tail: string)
    requires '/' !in head
    ensures Components(head + ("/" + tail)) == [head] + Components(tail)
  {
    var s := head + ("/" + tail);
    assert s == head + ['/'] + tail;
    Text.FirstIndexAfterPrefix(head, '/', tail);
    assert s[..|head|] == head;
    assert s[|head| + 1..] == tail;
  }

  lemma {:induction false} ComponentsOfJoined(cs: Path)
    requires |cs| >= 1 && ValidPath(cs)
    ensures Components(Joined(cs)) == cs
    decreases |cs|
  {
    if |cs| == 1 {
      assert Joined(cs) == cs[0] + "";
      assert cs[0] + "" == cs[0];
      assert Text.FirstIndex(cs[0], '/') == |cs[0]|;
    } else {
      var rest := cs[1..];
      assert ValidPath(rest) by {
        forall i | 0 <= i < |rest| ensures ValidName(rest[i]) {
          assert rest[i] == cs[i + 1];
        }
      }
      assert cs == [cs[0]] + rest;
      JoinedCons(cs[0], rest);
      assert ValidName(cs[0]);
      ComponentsCons(cs[0], Joined(rest));
      ComponentsOfJoined(rest);
    }
  }

  lemma {:induction false} JoinedOfComponents(s: string)
    ensures Joined(Components(s)) == s
    decreases |s|
  {
    var k := Text.FirstIndex(s, '/');
    if k == |s| {
      JoinedSingle(s);
    } else {
      var tail := s[k + 1..];
      JoinedOfComponents(tail);
      JoinedSplit(s, k);
    }
  }

  lemma JoinedSingle(s: string)
    requires Text.FirstIndex(s, '/') == |s|
    ensures Joined(Components(s)) == s
  {
    assert Components(s) == [s];
    assert [s][1..] == [];
    assert s + "" == s;
  }

  lemma JoinedSplit(s: string, k: nat)
    requires k == Text.FirstIndex(s, '/') && k < |s|
    requires Joined(Components(s[k + 1..])) == s[k + 1..]
    ensures Joined(Components(s)) == s
  {
    var head, tail := s[..k], s[k + 1..];
    var rest := Components(tail);
    ComponentsAt(s, k);
    JoinedCons(head, rest);
    assert Joined(rest) == tail;
    SplitAt(s, k);
  }

  lemma ComponentsAt(s: string, k: nat)
    requires k == Text.FirstIndex(s, '/') && k < |s|
    ensures Components(s) == [s[..k]] + Components(s[k + 1..])
  {
  }

  lemma SplitAt(s: string, k: nat)
    requires k < |s| && s[k] == '/'
    ensures s == s[..k] + ("/" + s[k + 1..])
  {
    assert s[k..] == [s[k]] + s[k + 1..];
    assert s == s[..k] + s[k..];
  }

  lemma JoinedCons(head: string, rest: Path)
    requires |rest| >= 1
    ensures Joined([head] + rest) == head + ("/" + Joined(rest))
  {
    var cs := [head] + rest;
    assert cs[0] == head && cs[1..] == rest;
  }

  lemma SlashedIsJoined(p: Path)
    requires p != []
    ensures Slashed(p) == "/" + Joined(p)
  {
  }

  /** A path of valid components reads back from its string form. */
  lemma ParseRender(p: Path)
    requires ValidPath(p)
    ensures ParsePath(Render(p)) == Some(p)
  {
    if p != [] {
      var s := Render(p);
      SlashedIsJoined(p);
      assert s[1..] == Joined(p);
      assert |p[0]| > 0;
      assert s != "/";
      ComponentsOfJoined(p);
    }
  }

  /** A string that parses is the string form of what it parses to. */
  lemma RenderParse(s: string, p: Path)
    requires ParsePath(s) == Some(p)
    ensures ValidPath(p) && Render(p) == s
  {
    if s != "/" {
      JoinedOfComponents(s[1..]);
      assert p == Components(s[1..]);
      SlashedIsJoined(p);
      assert s == "/" + s[1..];
    }
  }

  /** Rendering and parsing are inverse: a string parses to `p` exactly
      when `p` is made of valid components and renders as that string. */
  lemma ParseRenderIff(s: string, p: Path)
    ensures ParsePath(s) == Some(p) <==> ValidPath(p) && Render(p) == s
  {
    if ValidPath(p) && Render(p) == s {
      ParseRender(p);
    }
    if ParsePath(s) == Some(p) {
      RenderParse(s, p);
    }
  }
}

=== FILE: project.dfy ===
/** The directory-backed project store. A project is a directory: by default
    `<dataroot>/projects/<id>`, or a caller-chosen override. Its identity is the
    manifest `<dir>/.ondemand/manifest.yml`. Creating a project validates its
    fields, lays out the directory, copies an optional template into it and
    writes the manifest; updating rewrites the manifest with a new name,
    description and icon; destroying removes `.ondemand` and keeps the data. */
module Projects {
  import opened Outcomes
  import opened Paths
  import opened FileSystems
  import opened Manifests

  /** The store's configuration: the data root (injected rather than looked up
      globally) and the icon-format rule, which is kept abstract. */
  datatype Config = Config(dataroot: Path, iconValid: string -> bool)

  /** The attribute hash a caller passes to `new` or `update`; `None` stands
      for a key that is absent or nil. */
  datatype Attributes = Attributes(
    id: Option<string>,
    name: Option<string>,
    description: Option<string>,
    icon: Option<string>,
    directory: Option<Path>,
    template: Option<Path>)

  const NoAttributes: Attributes := Attributes(None, None, None, None, None, None)

  /** A project record. `directory` is unset until the project is created;
      `template` is only read while creating and is never persisted. */
  datatype Project = Project(
    id: string,
    name: string,
    description: string,
    icon: string,
    directory: Option<Path>,
    template: Option<Path>)

  /** The fields a validation error can be reported on; `Storage` reports a
      manifest that could not be written. */
  datatype Field = Name | Icon | Directory | Template | Storage

  /** Text fields read as the empty string when absent or nil. */
  function Value(v: Option<string>): string {
    v.GetOr("")
  }

  /** The part of a project that the manifest persists. */
  function ManifestOf(p: Project): Manifest {
    Manifest(p.id, p.name, p.description, p.icon)
  }

  /** `Project.new(attributes)`: a caller-supplied id is kept, otherwise the
      freshly generated one is used. */
  function New(attrs: Attributes, generatedId: string): (p: Project)
    requires generatedId != ""
    ensures p.id != ""
    ensures attrs.id.Some? && attrs.id.value != "" ==> p.id == attrs.id.value
    ensures p.directory == attrs.directory && p.template == attrs.template
    ensures p.name == Value(attrs.name) && p.description == Value(attrs.description)
    ensures p.icon == Value(attrs.icon)
  {
    Project(
      if attrs.id.Some? && attrs.id.value != "" then attrs.id.value else generatedId,
      Value(attrs.name), Value(attrs.description), Value(attrs.icon),
      attrs.directory, attrs.template)
  }

  /** Where a project lives: the override verbatim, else `<dataroot>/projects/<id>`. */
  function ProjectDirectory(cfg: Config, p: Project): Path {
    p.directory.GetOr(DefaultDirectory(cfg.dataroot, p.id))
  }

  /** Validation before creation, one error per invalid field: a missing name;
      a non-empty icon in the wrong format; an override directory that already
      exists; a template that is not an existing directory. */
  function CreateErrors(cfg: Config, fs: FileSystem, p: Project): (errors: set<Field>)
    ensures Name in errors <==> p.name == ""
    ensures Icon in errors <==> p.icon != "" && !cfg.iconValid(p.icon)
    ensures Directory in errors <==> p.directory.Some? && p.directory.value in fs
    ensures Template in errors <==> p.template.Some? && !IsDir(fs, p.template.value)
    ensures Storage !in errors
  {
    (if p.name == "" then {Name} else {})
      + (if p.icon != "" && !cfg.iconValid(p.icon) then {Icon} else {})
      + (if p.directory.Some? && p.directory.value in fs then {Directory} else {})
      + (if p.template.Some? && !IsDir(fs, p.template.value) then {Template} else {})
  }

  /** `save` of a new project. Validation runs before anything touches the
      filesystem; then the project directory is made, the template copied in,
      `.ondemand` made and the manifest written. A step that fails is reported
      on the field it belongs to. The saved record no longer carries the
      template, which is only read while creating. */
  function Create(cfg: Config, fs: FileSystem, p: Project): (r: Result<(Project, FileSystem), set<Field>>)
    ensures r.Failure? ==> r.error != {}
    ensures CreateErrors(cfg, fs, p) != {} ==> r == Failure(CreateErrors(cfg, fs, p))
    ensures r.Success? ==> CreateErrors(cfg, fs, p) == {}
    ensures r.Success? ==> r.value.0 == p.(directory := Some(ProjectDirectory(cfg, p)), template := None)
    ensures r.Success? ==> r.value.0.template.None?
    ensures r.Success? ==>
      var dir := ProjectDirectory(cfg, p);
      var after := r.value.1;
      && IsDir(after, dir)
      && IsDir(after, ConfigurationDirectory(dir))
      && ManifestPath(dir) in after
      && after[ManifestPath(dir)] == File(Serialise(ManifestOf(p)))
    ensures r.Success? ==> forall q :: q in fs ==> q in r.value.1
    ensures r.Success? ==>
      forall q :: q in fs && !IsPrefix(ProjectDirectory(cfg, p), q) ==> r.value.1[q] == fs[q]
    ensures r.Success? ==>
      forall q :: q in r.value.1 && q !in fs ==>
        IsPrefix(q, ProjectDirectory(cfg, p)) || StrictlyUnder(ProjectDirectory(cfg, p), q)
  {
    var errors := CreateErrors(cfg, fs, p);
    if errors != {} then Failure(errors)
    else
      var dir := ProjectDirectory(cfg, p);
      match MakePath(fs, dir)
      case None => Failure({Directory})
      case Some(made) =>
        var copied := if p.template.Some? then CopyInto(made, p.template.value, dir) else made;
        match MakePath(copied, ConfigurationDirectory(dir))
        case None => Failure({Directory})
        case Some(configured) =>
          var saved := p.(directory := Some(dir), template := None);
          match WriteFile(configured, ManifestPath(dir), Serialise(ManifestOf(saved)))
          case None => Failure({Storage})
          case Some(written) => Success((saved, written))
  }

  /** The template has no `.ondemand` entry of its own. */
  predicate NoConfigIn(fs: FileSystem, template: Path) {
    ConfigurationDirectory(template) !in fs
  }

  /** After `mkdir -p` of a path that did not exist, that path is an empty directory. */
  lemma MadeIsEmpty(fs: FileSystem, dir: Path)
    requires WellFormed(fs) && dir !in fs && MakePath(fs, dir).Some?
    ensures IsDir(MakePath(fs, dir).value, dir)
    ensures forall q :: q in MakePath(fs, dir).value ==> !StrictlyUnder(dir, q)
  {
    assert dir[..|dir|] == dir;
    NothingUnderMissing(fs, dir);
  }

  /** A node inside the template after `mkdir -p dir` was already there,
      unless the template lies on the way to `dir`. */
  lemma TemplateNodePreexists(fs: FileSystem, made: FileSystem, t: Path, dir: Path, u: Path)
    requires forall q :: q in made ==> q in fs || IsPrefix(q, dir)
    requires u in made && IsPrefix(t, u)
    ensures u in fs || IsPrefix(t, dir)
  {
    if u !in fs {
      PrefixTransitive(t, u, dir);
    }
  }

  /** Copying a template without `.ondemand` into an empty directory leaves that
      directory without `.ondemand`. */
  lemma CopyBringsNoConfig(fs: FileSystem, made: FileSystem, t: Path, dir: Path)
    requires WellFormed(fs) && NoConfigIn(fs, t) && !IsPrefix(t, dir)
    requires forall q :: q in made ==> q in fs || IsPrefix(q, dir)
    requires forall q :: q in made ==> !StrictlyUnder(dir, q)
    ensures forall q :: q in CopyInto(made, t, dir) ==> !IsPrefix(ConfigurationDirectory(dir), q)
  {
    var copied := CopyInto(made, t, dir);
    var cd := ConfigurationDirectory(dir);
    NothingUnderMissing(fs, ConfigurationDirectory(t));
    forall q | q in copied ensures !IsPrefix(cd, q) {
      if q in made {
        assert !StrictlyUnder(dir, q);
      } else {
        var s := q[|dir|..];
        var u := t + s;
        assert StrictlyUnder(dir, q) && u in made;
        assert q == dir + s && |s| > 0 && s[0] == q[|dir|];
        TemplateNodePreexists(fs, made, t, dir, u);
        assert u in fs;
        assert u[..|t| + 1] == t + [s[0]];
        assert s[0] == ConfigDirName ==> IsPrefix(ConfigurationDirectory(t), u);
        assert !StrictlyUnder(ConfigurationDirectory(t), u) && u != ConfigurationDirectory(t);
      }
    }
  }

  /** When `.ondemand` is absent and the project directory is a directory,
      `mkdir -p` of `.ondemand` succeeds and leaves no manifest yet. */
  lemma ConfigDirectoryMakeable(copied: FileSystem, dir: Path)
    requires IsDir(copied, dir)
    requires forall i :: 0 <= i <= |dir| ==> IsDir(copied, dir[..i])
    requires forall q :: q in copied ==> !IsPrefix(ConfigurationDirectory(dir), q)
    ensures MakePath(copied, ConfigurationDirectory(dir)).Some?
    ensures var configured := MakePath(copied, ConfigurationDirectory(dir)).value;
      IsDir(configured, ConfigurationDirectory(dir)) && ManifestPath(dir) !in configured
  {
    var cd := ConfigurationDirectory(dir);
    forall i | 0 <= i <= |cd| ensures !IsFile(copied, cd[..i]) {
      if i <= |dir| {
        assert cd[..i] == dir[..i];
      } else {
        assert cd[..i] == cd;
      }
    }
    assert cd[..|cd|] == cd;
  }

  /** A valid project whose directory is new succeeds, provided every existing
      component along the directory is a directory and the template neither
      carries its own `.ondemand` nor contains the new directory. */
  lemma CreateSucceeds(cfg: Config, fs: FileSystem, p: Project)
    requires WellFormed(fs)
    requires CreateErrors(cfg, fs, p) == {}
    requires ProjectDirectory(cfg, p) !in fs
    requires NoFileOnPath(fs, ProjectDirectory(cfg, p))
    requires p.template.Some? ==>
      NoConfigIn(fs, p.template.value) && !IsPrefix(p.template.value, ProjectDirectory(cfg, p))
    ensures Create(cfg, fs, p).Success?
  {
    var dir := ProjectDirectory(cfg, p);
    var made := MakePath(fs, dir).value;
    MadeIsEmpty(fs, dir);
    var copied := made;
    if p.template.Some? {
      CopyBringsNoConfig(fs, made, p.template.value, dir);
      copied := CopyInto(made, p.template.value, dir);
      assert forall i :: 0 <= i <= |dir| ==> IsDir(copied, dir[..i]) by {
        forall i | 0 <= i <= |dir| ensures IsDir(copied, dir[..i]) {
          assert !StrictlyUnder(dir, dir[..i]);
        }
      }
    } else {
      forall q | q in made ensures !IsPrefix(ConfigurationDirectory(dir), q) {
        assert !StrictlyUnder(dir, q);
      }
    }
    ConfigDirectoryMakeable(copied, dir);
  }

  /** Every entry of the template shows up in the new project directory with the
      same content; only the manifest the store writes itself takes precedence. */
  lemma CreateCopiesTemplate(cfg: Config, fs: FileSystem, p: Project)
    requires Create(cfg, fs, p).Success? && p.template.Some?
    ensures var dir, t, after := ProjectDirectory(cfg, p), p.template.value, Create(cfg, fs, p).value.1;
      forall s :: s != [] && t + s in fs && dir + s != ManifestPath(dir) ==>
        dir + s in after && after[dir + s] == fs[t + s]
    ensures Entries(fs, p.template.value) <= Entries(Create(cfg, fs, p).value.1, ProjectDirectory(cfg, p))
  {
    var dir, t := ProjectDirectory(cfg, p), p.template.value;
    var made := MakePath(fs, dir).value;
    var copied := CopyInto(made, t, dir);
    var configured := MakePath(copied, ConfigurationDirectory(dir)).value;
    var after := WriteFile(configured, ManifestPath(dir), Serialise(ManifestOf(p))).value;
    assert after == Create(cfg, fs, p).value.1;
    forall s | s != [] && t + s in fs && dir + s != ManifestPath(dir)
      ensures dir + s in after && after[dir + s] == fs[t + s]
    {
      CopiedEntrySurvives(fs, made, copied, configured, after, t, dir, s);
    }
    forall n | n in Entries(fs, t) ensures n in Entries(after, dir) {
      assert [n] != [] && dir + [n] != ManifestPath(dir);
    }
  }

  /** Create adds exactly the directories on the way to the project directory,
      `.ondemand`, the manifest and the copies of the template's nodes. */
  lemma CreateAddsOnly(cfg: Config, fs: FileSystem, p: Project)
    requires Create(cfg, fs, p).Success?
    ensures var dir, after := ProjectDirectory(cfg, p), Create(cfg, fs, p).value.1;
      forall q :: q in after && q !in fs ==>
        || IsPrefix(q, dir)
        || q == ConfigurationDirectory(dir)
        || q == ManifestPath(dir)
        || (p.template.Some? && StrictlyUnder(dir, q)
            && (p.template.value + q[|dir|..] in fs || IsPrefix(p.template.value + q[|dir|..], dir)))
  {
  }

  lemma CopiedEntrySurvives(fs: FileSystem, made: FileSystem, copied: FileSystem,
                            configured: FileSystem, after: FileSystem, t: Path, dir: Path, s: Path)
    requires forall q :: q in fs ==> q in made && made[q] == fs[q]
    requires copied == CopyInto(made, t, dir)
    requires forall q :: q in copied ==> q in configured && configured[q] == copied[q]
    requires forall q :: q in configured && q != ManifestPath(dir) ==> q in after && after[q] == configured[q]
    requires s != [] && t + s in fs && dir + s != ManifestPath(dir)
    ensures dir + s in after && after[dir + s] == fs[t + s]
  {
    assert made[t + s] == fs[t + s];
    CopiedEntry(made, t, dir, s);
  }

  /** A successful create leaves a well-formed tree, as long as the template is
      copied into a directory that did not exist before. */
  lemma CreatePreservesWellFormed(cfg: Config, fs: FileSystem, p: Project)
    requires WellFormed(fs) && Create(cfg, fs, p).Success?
    requires p.template.Some? ==> ProjectDirectory(cfg, p) !in fs
    ensures WellFormed(Create(cfg, fs, p).value.1)
  {
    var dir := ProjectDirectory(cfg, p);
    var made := MakePath(fs, dir).value;
    MakePathWellFormed(fs, dir);
    var copied := made;
    if p.template.Some? {
      NothingUnderMissing(fs, dir);
      assert IsDir(made, dir) by {
        assert dir[..|dir|] == dir;
      }
      CopyIntoWellFormed(made, p.template.value, dir);
      copied := CopyInto(made, p.template.value, dir);
    }
    MakePathWellFormed(copied, ConfigurationDirectory(dir));
    var configured := MakePath(copied, ConfigurationDirectory(dir)).value;
    WriteFileWellFormed(configured, ManifestPath(dir), Serialise(ManifestOf(p)));
  }

  /** The record after `update` has copied the attributes in: name, description
      and icon are replaced; id, directory and template are not touched. */
  function Updated(p: Project, attrs: Attributes): (q: Project)
    ensures q.id == p.id && q.directory == p.directory && q.template == p.template
  {
    p.(name := Value(attrs.name), description := Value(attrs.description), icon := Value(attrs.icon))
  }

  /** Validation on update: name and icon are both required and the icon must
      have the right format. Nothing else is re-validated. */
  function UpdateErrors(cfg: Config, q: Project): (errors: set<Field>)
    ensures Name in errors <==> q.name == ""
    ensures Icon in errors <==> q.icon == "" || !cfg.iconValid(q.icon)
    ensures Directory !in errors && Template !in errors && Storage !in errors
  {
    (if q.name == "" then {Name} else {})
      + (if q.icon == "" || !cfg.iconValid(q.icon) then {Icon} else {})
  }

  /** `update(attributes)`: validates the new values and rewrites the manifest
      in place. A record that was never created has no manifest to rewrite,
      and writing fails when `.ondemand` is gone; both are storage failures
      reported after validation. */
  function Update(cfg: Config, fs: FileSystem, p: Project, attrs: Attributes)
    : (r: Result<(Project, FileSystem), set<Field>>)
    ensures r.Failure? ==> r.error != {}
    ensures UpdateErrors(cfg, Updated(p, attrs)) != {} ==> r == Failure(UpdateErrors(cfg, Updated(p, attrs)))
    ensures r.Success? ==> UpdateErrors(cfg, Updated(p, attrs)) == {}
    ensures r.Failure? ==> (Name in r.error <==> Value(attrs.name) == "")
    ensures r.Failure? ==>
      (Icon in r.error <==> Value(attrs.icon) == "" || !cfg.iconValid(Value(attrs.icon)))
    ensures r.Success? ==>
      var q := r.value.0;
      && q.id == p.id && q.directory == p.directory && q.template == p.template
      && q.name == Value(attrs.name) && q.description == Value(attrs.description)
      && q.icon == Value(attrs.icon)
    ensures r.Success? ==> p.directory.Some?
    ensures r.Success? ==>
      var manifest, after := ManifestPath(p.directory.value), r.value.1;
      && after.Keys == fs.Keys + {manifest}
      && after[manifest] == File(Serialise(ManifestOf(r.value.0)))
      && forall k :: k in fs && k != manifest ==> after[k] == fs[k]
  {
    var q := Updated(p, attrs);
    var errors := UpdateErrors(cfg, q);
    if errors != {} then Failure(errors)
    else if q.directory.None? then Failure({Storage})
    else
      match WriteFile(fs, ManifestPath(q.directory.value), Serialise(ManifestOf(q)))
      case None => Failure({Storage})
      case Some(written) => Success((q, written))
  }

  /** A valid update of a created project succeeds while its `.ondemand` directory exists. */
  lemma UpdateSucceeds(cfg: Config, fs: FileSystem, p: Project, attrs: Attributes)
    requires UpdateErrors(cfg, Updated(p, attrs)) == {} && p.directory.Some?
    requires IsDir(fs, ConfigurationDirectory(p.directory.value))
    requires !IsDir(fs, ManifestPath(p.directory.value))
    ensures Update(cfg, fs, p, attrs).Success?
  {
  }

  /** The template is never retained: a created project, updated with any
      payload (a template in it included), still has none. */
  lemma TemplateNotRetained(cfg: Config, fs: FileSystem, p: Project, fs2: FileSystem, attrs: Attributes)
    requires Create(cfg, fs, p).Success?
    requires Update(cfg, fs2, Create(cfg, fs, p).value.0, attrs).Success?
    ensures Update(cfg, fs2, Create(cfg, fs, p).value.0, attrs).value.0.template.None?
  {
  }

  /** Updating keeps the tree well formed. */
  lemma UpdatePreservesWellFormed(cfg: Config, fs: FileSystem, p: Project, attrs: Attributes)
    requires WellFormed(fs) && Update(cfg, fs, p, attrs).Success?
    ensures WellFormed(Update(cfg, fs, p, attrs).value.1)
  {
    var q := Updated(p, attrs);
    WriteFileWellFormed(fs, ManifestPath(q.directory.value), Serialise(ManifestOf(q)));
  }

  /** `destroy!`: removes `.ondemand` and everything in it, and nothing else;
      the project directory and the user's files stay. */
  function Destroy(fs: FileSystem, p: Project): (after: FileSystem)
    ensures p.directory.Some? ==> ConfigDirName !in Entries(after, p.directory.value)
    ensures p.directory.Some? ==>
      forall k :: k in fs && !IsPrefix(ConfigurationDirectory(p.directory.value), k) ==> k in after
    ensures forall k :: k in after ==> k in fs && after[k] == fs[k]
    ensures p.directory.None? ==> after == fs
  {
    match p.directory
    case None => fs
    case Some(dir) => RemoveTree(fs, ConfigurationDirectory(dir))
  }

  /** Destroying twice is the same as destroying once. */
  lemma DestroyIdempotent(fs: FileSystem, p: Project)
    ensures Destroy(Destroy(fs, p), p) == Destroy(fs, p)
  {
    var once := Destroy(fs, p);
    var twice := Destroy(once, p);
    assert twice.Keys == once.Keys;
  }

  /** Destroying leaves the project directory where it was: still listed in
      its parent, with only `.ondemand` gone from its own listing. */
  lemma DestroyKeepsDirectory(fs: FileSystem, p: Project)
    requires p.directory.Some? && p.directory.value != [] && p.directory.value in fs
    ensures var dir, after := p.directory.value, Destroy(fs, p);
      && dir in after && after[dir] == fs[dir]
      && Entries(after, Parent(dir)) == Entries(fs, Parent(dir))
      && Entries(after, dir) == Entries(fs, dir) - {ConfigDirName}
  {
    var dir, after := p.directory.value, Destroy(fs, p);
    var cd := ConfigurationDirectory(dir);
    assert !IsPrefix(cd, dir);
    forall n ensures n in Entries(after, Parent(dir)) <==> n in Entries(fs, Parent(dir)) {
      var k := Parent(dir) + [n];
      assert !IsPrefix(cd, k);
    }
    forall n ensures n in Entries(after, dir) <==> n in Entries(fs, dir) && n != ConfigDirName {
      var k := dir + [n];
      assert IsPrefix(cd, k) <==> n == ConfigDirName by {
        assert k[..|cd|] == cd <==> n == ConfigDirName by {
          if |k| == |cd| {
            assert k[..|cd|] == k;
          }
        }
      }
    }
  }

  /** Destroying keeps the tree well formed. */
  lemma DestroyPreservesWellFormed(fs: FileSystem, p: Project)
    requires WellFormed(fs)
    ensures WellFormed(Destroy(fs, p))
  {
    if p.directory.Some? {
      RemoveTreeWellFormed(fs, ConfigurationDirectory(p.directory.value));
    }
  }

  /** Why reading a project back can fail. */
  datatype LoadError = NotFound | Malformed

  /** Reads the manifest of the project rooted at `dir`. A missing manifest is
      reported apart from one that does not parse. */
  function Load(fs: FileSystem, dir: Path): (r: Result<Manifest, LoadError>)
    ensures r == Failure(NotFound) <==> !IsFile(fs, ManifestPath(dir))
    ensures IsFile(fs, ManifestPath(dir)) ==> (r.Success? <==> Parse(fs[ManifestPath(dir)].content).Some?)
    ensures r.Success? ==> Serialise(r.value) == fs[ManifestPath(dir)].content
  {
    var path := ManifestPath(dir);
    if !IsFile(fs, path) then Failure(NotFound)
    else match Parse(fs[path].content)
      case None => Failure(Malformed)
      case Some(m) =>
        SerialiseParse(fs[path].content, m);
        Success(m)
  }

  /** A created project reads back as the fields it was created with. */
  lemma LoadAfterCreate(cfg: Config, fs: FileSystem, p: Project)
    requires Create(cfg, fs, p).Success? && Emittable(ManifestOf(p))
    ensures Load(Create(cfg, fs, p).value.1, ProjectDirectory(cfg, p)) == Success(ManifestOf(p))
  {
    ParseSerialise(ManifestOf(p));
  }

  /** An updated project reads back as its new fields. */
  lemma LoadAfterUpdate(cfg: Config, fs: FileSystem, p: Project, attrs: Attributes)
    requires Update(cfg, fs, p, attrs).Success?
    requires Emittable(ManifestOf(Update(cfg, fs, p, attrs).value.0))
    ensures var (q, after) := Update(cfg, fs, p, attrs).value;
      Load(after, p.directory.value) == Success(ManifestOf(q))
  {
    ParseSerialise(ManifestOf(Update(cfg, fs, p, attrs).value.0));
  }

  /** After destroy the project's identity is gone: reading it reports not-found. */
  lemma LoadAfterDestroy(fs: FileSystem, p: Project)
    requires p.directory.Some?
    ensures Load(Destroy(fs, p), p.directory.value) == Failure(NotFound)
  {
    assert IsPrefix(ConfigurationDirectory(p.directory.value), ManifestPath(p.directory.value));
  }
}

=== FILE: scenarios.dfy ===
/** The concrete situations the project store's tests describe, stated for
    every filesystem and data root that fit them. The icon rule stays
    abstract; only the four icon strings the tests use are pinned down. */
module Scenarios {
  import opened Outcomes
  import opened Paths
  import opened FileSystems
  import opened Manifests
  import opened Projects

  /** The icon rule accepts the icons the tests use and rejects `invalid_format`. */
  predicate IconRuleAgrees(cfg: Config) {
    && cfg.iconValid("fas://arrow-right")
    && cfg.iconValid("fas://arrow-left")
    && cfg.iconValid("fas://updated")
    && !cfg.iconValid("invalid_format")
  }

  /** A temporary data root: an existing directory below `/`, whose
      `projects` entry, if any, is a directory. */
  predicate DataRoot(cfg: Config, fs: FileSystem) {
    && WellFormed(fs)
    && cfg.dataroot != []
    && IsDir(fs, cfg.dataroot)
    && !IsFile(fs, ProjectsRoot(cfg.dataroot))
    && IconRuleAgrees(cfg)
  }

  /** What `next_id` promises: a usable name not yet taken under `projects/`. */
  predicate FreshId(cfg: Config, fs: FileSystem, id: string) {
    ValidName(id) && DefaultDirectory(cfg.dataroot, id) !in fs
  }

  /** The attributes the tests' `create_project` helper passes. */
  function TestAttributes(id: string, directory: Option<Path>, template: Option<Path>): Attributes {
    Attributes(Some(id), Some("test-project"), Some("description"), Some("fas://arrow-right"),
               directory, template)
  }

  /** The manifest text the tests expect for a project made by `create_project`. */
  function ExpectedManifest(id: string): string {
    Lines(["---", "id: " + id, "name: test-project", "description: description", "icon: fas://arrow-right"])
  }

  /** A project built from no attributes has a generated id, no directory and
      empty name, description and icon. */
  lemma NewProjectDefaults(generatedId: string)
    requires generatedId != ""
    ensures var p := New(NoAttributes, generatedId);
      && p.id != "" && p.directory.None?
      && p.name == "" && p.description == "" && p.icon == ""
  {
  }

  /** Saving a project built from `{}` fails with exactly one error, on the name. */
  lemma CreateEmptyFails(cfg: Config, fs: FileSystem, generatedId: string)
    requires generatedId != ""
    ensures var r := Create(cfg, fs, New(NoAttributes, generatedId));
      r.Failure? && r.error == {Name} && |r.error| == 1
  {
  }

  /** An invalid icon, an existing directory and a missing template give
      exactly three errors, one on each of those fields. */
  lemma CreateThreeInvalidFields(cfg: Config, fs: FileSystem, generatedId: string)
    requires generatedId != "" && IconRuleAgrees(cfg)
    requires IsDir(fs, ProjectsRoot(cfg.dataroot))
    requires !IsDir(fs, ["invalid", "template"])
    ensures var attrs := Attributes(None, Some("test"), None, Some("invalid_format"),
                                    Some(ProjectsRoot(cfg.dataroot)), Some(["invalid", "template"]));
      var r := Create(cfg, fs, New(attrs, generatedId));
      r.Failure? && r.error == {Icon, Directory, Template} && |r.error| == 3
  {
    var attrs := Attributes(None, Some("test"), None, Some("invalid_format"),
                            Some(ProjectsRoot(cfg.dataroot)), Some(["invalid", "template"]));
    var errors := CreateErrors(cfg, fs, New(attrs, generatedId));
    assert errors == {Icon, Directory, Template};
  }

  lemma DefaultDirectoryMakeable(cfg: Config, fs: FileSystem, id: string)
    requires DataRoot(cfg, fs) && FreshId(cfg, fs, id)
    ensures NoFileOnPath(fs, DefaultDirectory(cfg.dataroot, id))
  {
    var dir := DefaultDirectory(cfg.dataroot, id);
    forall i | 0 <= i <= |dir| ensures !IsFile(fs, dir[..i]) {
      if i < |cfg.dataroot| {
        assert StrictlyUnder(dir[..i], cfg.dataroot) by {
          assert cfg.dataroot[..i] == dir[..i];
        }
        AncestorsAreDirectories(fs, cfg.dataroot, dir[..i]);
      } else if i == |cfg.dataroot| {
        assert dir[..i] == cfg.dataroot;
      } else if i == |cfg.dataroot| + 1 {
        assert dir[..i] == ProjectsRoot(cfg.dataroot);
      } else {
        assert dir[..i] == dir;
      }
    }
  }

  /** The tests' `create_project` with the default directory: it succeeds,
      the project lives at `<dataroot>/projects/<id>`, its id is listed under
      `projects/`, `.ondemand` is listed in it and the manifest holds exactly
      the expected text. */
  lemma CreateProjectDefault(cfg: Config, fs: FileSystem, id: string)
    requires DataRoot(cfg, fs) && FreshId(cfg, fs, id)
    ensures var r := Create(cfg, fs, New(TestAttributes(id, None, None), id));
      var dir := DefaultDirectory(cfg.dataroot, id);
      && r.Success?
      && r.value.0.id == id
      && r.value.0.directory == Some(dir)
      && Render(dir) == Render(cfg.dataroot) + "/projects/" + id
      && id in Entries(r.value.1, ProjectsRoot(cfg.dataroot))
      && ConfigDirName in Entries(r.value.1, dir)
      && IsFile(r.value.1, ManifestPath(dir))
      && r.value.1[ManifestPath(dir)].content == ExpectedManifest(id)
  {
    var p := New(TestAttributes(id, None, None), id);
    var dir := DefaultDirectory(cfg.dataroot, id);
    assert ProjectDirectory(cfg, p) == dir;
    DefaultDirectoryMakeable(cfg, fs, id);
    CreateSucceeds(cfg, fs, p);
    RenderDefaultDirectory(cfg.dataroot, id);
    TestManifestText(id);
    assert ProjectsRoot(cfg.dataroot) + [id] == dir;
    assert dir + [ConfigDirName] == ConfigurationDirectory(dir);
  }

  /** The manifest of `m` as five given lines, once each line is known to be
      the `key: value` form of the matching field. */
  lemma ManifestAsGivenLines(m: Manifest, idLine: string, nameLine: string,
                             descriptionLine: string, iconLine: string)
    requires idLine == "id: " + m.id && nameLine == "name: " + m.name
    requires descriptionLine == "description: " + m.description && iconLine == "icon: " + m.icon
    ensures Serialise(m) == Lines(["---", idLine, nameLine, descriptionLine, iconLine])
  {
    SerialiseAsLines(m);
  }

  lemma TestManifestText(id: string)
    ensures Serialise(Manifest(id, "test-project", "description", "fas://arrow-right")) == ExpectedManifest(id)
  {
    assert "name: " + "test-project" == "name: test-project";
    assert "description: " + "description" == "description: description";
    assert "icon: " + "fas://arrow-right" == "icon: fas://arrow-right";
    ManifestAsGivenLines(Manifest(id, "test-project", "description", "fas://arrow-right"),
                         "id: " + id, "name: test-project", "description: description", "icon: fas://arrow-right");
  }

  /** With a directory override that does not exist yet, the project lives at
      exactly that path and its manifest is at `<override>/.ondemand/manifest.yml`. */
  lemma CreateProjectWithOverride(cfg: Config, fs: FileSystem, id: string, override: Path)
    requires DataRoot(cfg, fs) && id != ""
    requires override !in fs && NoFileOnPath(fs, override)
    ensures var r := Create(cfg, fs, New(TestAttributes(id, Some(override), None), id));
      && r.Success?
      && r.value.0.directory == Some(override)
      && IsDir(r.value.1, override)
      && IsFile(r.value.1, ManifestPath(override))
  {
    var p := New(TestAttributes(id, Some(override), None), id);
    CreateSucceeds(cfg, fs, p);
  }

  /** With a template directory, every entry of the template is listed in the
      new project directory. */
  lemma CreateProjectWithTemplate(cfg: Config, fs: FileSystem, id: string, template: Path)
    requires DataRoot(cfg, fs) && FreshId(cfg, fs, id)
    requires IsDir(fs, template) && NoConfigIn(fs, template)
    requires !IsPrefix(template, DefaultDirectory(cfg.dataroot, id))
    ensures var r := Create(cfg, fs, New(TestAttributes(id, None, Some(template)), id));
      && r.Success?
      && Entries(fs, template) <= Entries(r.value.1, DefaultDirectory(cfg.dataroot, id))
  {
    var p := New(TestAttributes(id, None, Some(template)), id);
    assert ProjectDirectory(cfg, p) == DefaultDirectory(cfg.dataroot, id);
    DefaultDirectoryMakeable(cfg, fs, id);
    CreateSucceeds(cfg, fs, p);
    CreateCopiesTemplate(cfg, fs, p);
  }

  /** Destroying a freshly created project removes `.ondemand` from its
      directory while the directory stays listed under `projects/`. */
  lemma DestroyCreatedProject(cfg: Config, fs: FileSystem, id: string)
    requires DataRoot(cfg, fs) && FreshId(cfg, fs, id)
    ensures Create(cfg, fs, New(TestAttributes(id, None, None), id)).Success?
    ensures var (p, created) := Create(cfg, fs, New(TestAttributes(id, None, None), id)).value;
      var dir, after := DefaultDirectory(cfg.dataroot, id), Destroy(created, p);
      && id in Entries(after, ProjectsRoot(cfg.dataroot))
      && ConfigDirName !in Entries(after, dir)
  {
    CreateProjectDefault(cfg, fs, id);
    var (p, created) := Create(cfg, fs, New(TestAttributes(id, None, None), id)).value;
    var dir := DefaultDirectory(cfg.dataroot, id);
    DestroyKeepsDirectory(created, p);
    assert Parent(dir) == ProjectsRoot(cfg.dataroot);
  }

  /** Updating name, description and icon rewrites the manifest with the new
      values and the original id. */
  lemma UpdateCreatedProject(cfg: Config, fs: FileSystem, id: string)
    requires DataRoot(cfg, fs) && FreshId(cfg, fs, id)
    ensures Create(cfg, fs, New(TestAttributes(id, None, None), id)).Success?
    ensures var (p, created) := Create(cfg, fs, New(TestAttributes(id, None, None), id)).value;
      var attrs := Attributes(None, Some("test-project-2"), Some("my test project"),
                              Some("fas://arrow-left"), None, None);
      var r := Update(cfg, created, p, attrs);
      && r.Success?
      && IsFile(r.value.1, ManifestPath(p.directory.value))
      && r.value.1[ManifestPath(p.directory.value)].content
         == Lines(["---", "id: " + id, "name: test-project-2", "description: my test project", "icon: fas://arrow-left"])
  {
    CreateProjectDefault(cfg, fs, id);
    var (p, created) := Create(cfg, fs, New(TestAttributes(id, None, None), id)).value;
    var attrs := Attributes(None, Some("test-project-2"), Some("my test project"),
                            Some("fas://arrow-left"), None, None);
    var dir := p.directory.value;
    assert IsDir(created, ConfigurationDirectory(dir));
    UpdateSucceeds(cfg, created, p, attrs);
    var q := Update(cfg, created, p, attrs).value.0;
    UpdatedManifestText(id, q);
  }

  lemma UpdatedManifestText(id: string, q: Project)
    requires q.id == id && q.name == "test-project-2" && q.description == "my test project"
    requires q.icon == "fas://arrow-left"
    ensures Serialise(ManifestOf(q))
         == Lines(["---", "id: " + id, "name: test-project-2", "description: my test project", "icon: fas://arrow-left"])
  {
    assert "name: " + "test-project-2" == "name: test-project-2";
    assert "description: " + "my test project" == "description: my test project";
    assert "icon: " + "fas://arrow-left" == "icon: fas://arrow-left";
    ManifestAsGivenLines(ManifestOf(q), "id: " + id, "name: test-project-2",
                         "description: my test project", "icon: fas://arrow-left");
  }

  /** An update payload that also carries id, directory and template changes
      only name, icon and description; id and directory keep their values and
      the template stays unset. */
  lemma UpdateIgnoresCreateOnlyFields(cfg: Config, fs: FileSystem, id: string)
    requires DataRoot(cfg, fs) && FreshId(cfg, fs, id)
    ensures Create(cfg, fs, New(TestAttributes(id, None, None), id)).Success?
    ensures var (p, created) := Create(cfg, fs, New(TestAttributes(id, None, None), id)).value;
      var attrs := Attributes(Some("updated"), Some("updated"), Some("updated"),
                              Some("fas://updated"), Some(["updated"]), Some(["some", "path"]));
      var r := Update(cfg, created, p, attrs);
      && r.Success?
      && r.value.0.name == "updated" && r.value.0.icon == "fas://updated"
      && r.value.0.description == "updated"
      && r.value.0.id == p.id && r.value.0.directory == p.directory
      && r.value.0.template.None?
  {
    CreateProjectDefault(cfg, fs, id);
    var (p, created) := Create(cfg, fs, New(TestAttributes(id, None, None), id)).value;
    var attrs := Attributes(Some("updated"), Some("updated"), Some("updated"),
                            Some("fas://updated"), Some(["updated"]), Some(["some", "path"]));
    var dir := p.directory.value;
    assert IsDir(created, ConfigurationDirectory(dir));
    UpdateSucceeds(cfg, created, p, attrs);
  }

  /** Updating a created project with a nil name and a nil icon fails with
      exactly two errors, on name and on icon. */
  lemma UpdateNilNameAndIcon(cfg: Config, fs: FileSystem, p: Project)
    ensures var r := Update(cfg, fs, p, Attributes(None, None, None, None, None, None));
      r.Failure? && r.error == {Name, Icon} && |r.error| == 2
  {
    var errors := UpdateErrors(cfg, Updated(p, NoAttributes));
    assert errors == {Name, Icon};
  }
}

=== FILE: text.dfy ===
/** Character-level helpers shared by the path renderer and the manifest codec. */
module Text {

  /** The position of the first `c` in `s`, or `|s|` when `s` has none. */
  function FirstIndex(s: string, c: char): (i: nat)
    ensures i <= |s|
    ensures c !in s[..i]
    ensures i < |s| ==> s[i] == c
    ensures i == |s| <==> c !in s
  {
    if |s| == 0 then 0
    else if s[0] == c then 0
    else
      var j := FirstIndex(s[1..], c);
      assert s[1..][..j] == s[1..j + 1];
      assert s[..j + 1] == [s[0]] + s[1..][..j];
      j + 1
  }

  /** A separator placed right after a separator-free prefix is found exactly there. */
  lemma {:induction false} FirstIndexAfterPrefix(a: string, c: char, b: string)
    requires c !in a
    ensures FirstIndex(a + [c] + b, c) == |a|
  {
    var s := a + [c] + b;
    if |a| == 0 {
      assert s[0] == c;
    } else {
      assert s[0] == a[0] && a[0] != c;
      assert s[1..] == a[1..] + [c] + b;
      FirstIndexAfterPrefix(a[1..], c, b);
    }
  }
}
